=== FILE: README.md ===
# includedir in Dafny

This project models `includedir`, a pair of Rust crates that embed the files
of a directory into a compiled program.

- **codegen** is the build-time generator. A build script calls `start`, then
  `passthrough`, `add_file` and `add_dir`, and finally `build`. The builder
  records a table from a key (the file's path, normalised by `as_key`) to a
  compression tag and a path. A `Gzip` file is encoded into the output
  directory first. `build` writes the table as Rust source: one
  `(Compression::<tag>, include_bytes!("<path>") as &'static [u8])` value per
  key, or a fixed empty placeholder for passthrough entries.
- **lib** is the run-time accessor. The generated static `Files` answers
  `available`, `file_names`, `get` and `read`. Gzip payloads are decoded on
  the fly. Passthrough entries are read from the filesystem at the caller's
  own path.

Modules:

- `Common` holds the shared types:
  - the `Compression` tag;
  - the `Option` and `Result` wrappers;
  - the I/O error kinds;
  - an abstract `Disk`: file contents, plus a set of paths that cannot be
    created;
  - the gzip `Codec` as three uninterpreted functions. `Lossless` states the
    one property the round trips assume of it.
- `Paths` holds `as_key` (identical in both crates) and the POSIX `Path::join`
  that locates sources and outputs.
- `Codes` holds `Display` of a tag, and the generated value text together with
  the compiler's reading of it.
- `Codegen` holds the builder, its invariant `Valid`, and `build`.
- `Runtime` holds the accessor.
- `Pipeline` joins the two crates: the generated table is compiled (each
  `include_bytes!` reads its file) into a `Files`. It proves what `get`
  returns for what the builder was given, including a three-file gzip
  directory like the example crate's `data/`.

Environment and platform are parameters:

- `BuildEnv` carries `CARGO_MANIFEST_DIR`, `OUT_DIR` and the platform (which
  decides `as_key`).
- `Target` carries the accessor's platform and whether the `flate2` feature is
  compiled in.

Panics become preconditions:

- `Display` of `Passthrough`;
- a gzip lookup without `flate2`.

A builder's fields are private, so every builder is reached from `start`
through the builder calls. `Codegen.RunPreservesValid` shows every such
builder satisfies `Valid`: every key is already normalised, and passthrough
entries hold an empty path. `Codegen.Build` takes `Valid` as its precondition
on that basis.

Facts about this version of includedir that the model follows:

- This accessor has no `set_passthrough` or `get_raw`. Passthrough is a
  per-entry tag set at build time.
- `add_file` with `None` records the path without opening the file. A missing
  file surfaces when the generated `include_bytes!` is compiled
  (`Pipeline.Compile`).
- `available` does not normalise its argument while `get` does. On Windows the
  two disagree on a backslash spelling (`Runtime.AvailableDoesNotNormalise`).
- `passthrough()` takes no argument, so the example build script's
  `.passthrough(bool)` call does not match it. The example is not part of
  this model beyond its directory layout.
- A gzip `add_file` of an absolute path reads from and writes to that same
  path. The output file is created, and so emptied, before the source is read,
  so the source file ends up holding the encoding of no bytes and `get` serves
  nothing (`Pipeline.AbsoluteGzipLosesSource`).

## Model

| member | source | states |
|---|---|---|
| Paths.Replace | codegen/src/lib.rs:49 | `str::replace` of one character: same length, and each position holds `to` exactly where the input held `from`, otherwise the input character |
| Paths.AsKey | codegen/src/lib.rs:47-55 | on Windows no backslash survives and only backslashes change; on other platforms the path is its own key; length is kept |
| Paths.KeyCharacterisation | lib/src/lib.rs:25-33 | a string is a fixed point of `as_key` exactly when the platform is not Windows or the string holds no backslash |
| Paths.AsKeyIdempotent | codegen/src/lib.rs:148 | normalising a key again changes nothing, so `build`'s second `as_key` on a stored key keeps it |
| Paths.SeparatorsMerge | lib/src/lib.rs:46-48 | on Windows a backslash and a forward slash spelling of a path give the same lookup key, and the key splits at that separator |
| Paths.Join | codegen/src/lib.rs:91-94 | an absolute path replaces the base, and joining onto an absolute base stays absolute |
| Paths.JoinRelative | codegen/src/lib.rs:91-94 | a relative path lands inside the base directory: the join is the base, then a `/` (the base's own trailing one or one added), then the path, with no overlap; an empty base gives the path itself |
| Common.ReadFile | lib/src/lib.rs:62-65 | opening and reading a file succeeds with its contents exactly when it exists, and otherwise fails naming the path |
| Codes.Display | codegen/src/lib.rs:23-31 | `Passthrough` is excluded (it panics); the printed name has four characters and reads back as the tag printed |
| Codes.Parse | codegen/src/lib.rs:147-157 | anything the compiler accepts as a generated value is the placeholder or an include whose tag is not `Passthrough` |
| Codes.Render | codegen/src/lib.rs:147-157 | the placeholder or the `include_bytes!` expression for a value; every generated value reads back as the (tag, path) it was generated from |
| Codes.RenderInjective | codegen/src/lib.rs:152-156 | distinct (tag, path) values generate distinct text |
| Codegen.Start | codegen/src/lib.rs:39-45 | a new builder has no files, the given static name, the passthrough flag off, and is valid |
| Codegen.SetPassthrough | codegen/src/lib.rs:59-62 | sets the flag, and keeps the files and the name |
| Codegen.InPath | codegen/src/lib.rs:91 | an absolute path is its own gzip source, and an absolute manifest directory gives an absolute source (the relative case is `Codegen.RelativePathsStayInside`) |
| Codegen.OutPath | codegen/src/lib.rs:94 | an absolute path escapes the output directory and then equals the source path; an absolute output directory gives an absolute output (the relative case is `Codegen.RelativePathsStayInside`) |
| Codegen.RelativePathsStayInside | codegen/src/lib.rs:91-94 | a relative path's gzip source lies inside the manifest directory and its output inside the output directory: directory, `/`, then the path, so a sibling such as `/outfoo` for `/out` is excluded |
| Codegen.AddFile | codegen/src/lib.rs:76-107 | precedence flag/`Passthrough`, then `None`, then `Gzip`; map insertion under the normalised key, overwriting; gzip succeeds exactly when the source opens and the output can be created, writes the encoding there (of nothing when source and output coincide) and records the output path; an error changes nothing; validity is kept |
| Codegen.WalkedKeys | codegen/src/lib.rs:120-122 | the collected keys are exactly the normalised paths of the non-directory items the walk yields, and all are normalised |
| Codegen.AddDir | codegen/src/lib.rs:119-129 | keeps the name and flag; keys only grow, and only by walked keys; success covers every walked file; only a gzip `add_file` can make it fail; validity is kept |
| Codegen.AddDirAppend | codegen/src/lib.rs:120-127 | a walk split in two is the first part then the second, unless the first part fails, which stops the loop with its earlier additions kept |
| Codegen.AddDirSkips | codegen/src/lib.rs:121-125 | directories and walk errors change nothing and never fail |
| Codegen.AddDirOneFile | codegen/src/lib.rs:120-125 | a walk whose only file comes after directories and walk errors is exactly one `add_file` of that file with the same compression |
| Codegen.AddDirPassthrough | codegen/src/lib.rs:80-83 | under the flag or a `Passthrough` policy, `add_dir` succeeds, touches no file, and adds a passthrough entry for every walked key |
| Codegen.Run | codegen/src/lib.rs:59-129 | a chain of builder calls stopping at its first error never renames the static, never clears the passthrough flag and never removes a recorded key |
| Codegen.RunPreservesValid | codegen/src/lib.rs:33-37 | every builder reached from a valid one by a chain of calls that stops at its first error is valid: keys normalised, passthrough entries with an empty path (a caller who ignores an error and goes on stays valid too, since `AddFile`, `AddDir` and `SetPassthrough` keep validity whatever their status) |
| Codegen.PassthroughSticky | codegen/src/lib.rs:59-62 | once the flag is set it stays set: every later call succeeds, reads and writes nothing, and any entry it adds or replaces is a passthrough entry |
| Codegen.CodeOf | codegen/src/lib.rs:145-157 | a passthrough entry becomes the placeholder; any other entry includes its normalised manifest-joined path under its own tag |
| Codegen.Build | codegen/src/lib.rs:142-164 | one value per recorded key, under the same key; the placeholder for passthrough entries; every other value reads back as its tag and include path |
| Runtime.Next | lib/src/lib.rs:100-106 | yields nothing exactly when no names remain; otherwise yields the first pending name and drops it |
| Runtime.DrainYieldsPending | lib/src/lib.rs:93-106 | calling `next` until it yields nothing produces exactly the pending names in order |
| Runtime.FileNamesOf | lib/src/lib.rs:40-44 | the iterator yields every key of the table exactly once, and nothing else |
| Runtime.Inflate | lib/src/lib.rs:54-56 | decoding succeeds exactly when both the header check and the body decode succeed, and then yields the decoded bytes; every failure is a corrupt-data error |
| Runtime.Get | lib/src/lib.rs:46-71 | not found exactly when the normalised key is missing; otherwise `None` gives the stored bytes, `Gzip` the decoded bytes, and `Passthrough` the file at the caller's own path; a gzip lookup needs the decoder |
| Runtime.ReadToEnd | lib/src/lib.rs:78-84 | reading a stream to its end: the stored bytes, the file contents, or, for a gzip stream, the decoded body exactly when it decodes and otherwise a corrupt-data error |
| Runtime.Read | lib/src/lib.rs:73-90 | not found exactly when the normalised key is missing; opening succeeds exactly when the key is present and, for `Gzip`, the stored bytes carry a valid header (the body is decoded only as the stream is read), or, for `Passthrough`, the caller's file exists; a successful open hands out a stream over the entry's own stored bytes (`None` or `Gzip`) or over the file at the caller's path |
| Runtime.ReadAgreesWithGet | lib/src/lib.rs:73-90 | reading `read`'s stream to its end gives what `get` gives, and `read` fails only where `get` fails the same way |
| Runtime.GetDependsOnKeyOnly | lib/src/lib.rs:47-48 | two spellings with the same key get the same answer unless the entry is passthrough |
| Runtime.PassthroughIgnoresPayload | lib/src/lib.rs:61-66 | a passthrough entry's stored bytes play no part in any lookup |
| Runtime.AvailableDoesNotNormalise | lib/src/lib.rs:36-48 | on Windows a key `a/b` is not available as `a\b`, yet `get("a\b")` finds it |
| Pipeline.Compile | codegen/src/lib.rs:152-156 | a generated value compiles exactly when it has a generated shape and its included file exists; it then holds the placeholder or that file's bytes under its tag |
| Pipeline.Embed | codegen/src/lib.rs:161-165 | the compiled static exists exactly when every value compiles, and has the generated keys and the compiled values |
| Pipeline.BuiltTableServes | lib/src/lib.rs:46-71 | the compiled table exists exactly when every included file exists; `get` of any path then answers from the builder's entry under its key, or not found |
| Pipeline.BuiltCompiles | codegen/src/lib.rs:142-165 | the generated table compiles exactly when every included file exists |
| Pipeline.BuiltServes | lib/src/lib.rs:46-71 | the compiled table answers `get` of any path from the builder's entry under its key, or not found |
| Pipeline.AvailableIsAdded | lib/src/lib.rs:36-38 | in a built table, `available` holds exactly for the keys the builder recorded, each of which `get` finds; where paths are their own keys, `available` and `get` agree on every path |
| Pipeline.BuiltTableServesAll | codegen/src/lib.rs:142-165 | a valid builder whose included files all exist produces a table that compiles |
| Pipeline.RoundTripNone | codegen/src/lib.rs:85-88 | a `None` file is recorded without touching the disk; the crate compiles exactly when the normalised manifest-joined file exists, and `get` returns its bytes with or without the decoder, on every platform |
| Pipeline.RoundTripGzip | codegen/src/lib.rs:89-103 | with a lossless codec and distinct source and output, a `Gzip` file's `add_file` succeeds, the crate compiles, and `get` returns the source's original bytes |
| Pipeline.AbsoluteGzipLosesSource | codegen/src/lib.rs:91-96 | a gzip `add_file` of an absolute path succeeds, overwrites the source with the encoding of no bytes, and `get` then serves no bytes |
| Pipeline.RoundTripPassthrough | lib/src/lib.rs:61-66 | a passthrough file needs nothing at build time and keeps the crate compiling; `get` returns the file as it is on disk at run time |
| Pipeline.WalkedFiles | codegen/src/lib.rs:120-122 | the collected paths are exactly the paths of the non-directory items the walk yields |
| Pipeline.AddFileKeepsEncoded | codegen/src/lib.rs:89-103 | for separated files, a gzip `add_file` of a walked file keeps every recorded output holding the encoding of its untouched source |
| Pipeline.AddDirKeepsEncoded | codegen/src/lib.rs:119-129 | the same for a whole gzip `add_dir` of separated files |
| Pipeline.AddDirFailure | codegen/src/lib.rs:92-96 | for separated files, a failing gzip `add_dir` met a walked file whose source is missing or whose output cannot be created |
| Pipeline.GzipDirStatus | codegen/src/lib.rs:119-129 | for separated files, a gzip `add_dir` from a fresh builder succeeds exactly when every walked source exists and every output can be created, and then records every walked key |
| Pipeline.GzipDirRecords | codegen/src/lib.rs:119-129 | a gzip `add_dir` of separated files whose sources all exist, from a fresh builder, succeeds and records exactly the walked files |
| Pipeline.GzipDirServes | codegen/src/lib.rs:119-129 | with a lossless codec, that `add_dir` then builds a table that compiles, has exactly the walked files as keys, and serves each file's source bytes |
| Pipeline.GzipDirRoundTrip | codegen/src/lib.rs:119-129 | `start`, gzip `add_dir`, `build`, compile: on success the crate compiles and `get` of every walked path returns its original bytes |
| Pipeline.EncodedServes | lib/src/lib.rs:53-58 | a table built from encoded outputs compiles, and `get` of each file returns its source bytes |
| Pipeline.ServesEncodedFile | lib/src/lib.rs:53-58 | `get` of a gzip entry whose output file holds the encoding of some bytes returns those bytes |
| Pipeline.FilesAreWalked | codegen/src/lib.rs:120-123 | every walked file's key is among the walked keys |
| Pipeline.DataDirExample | example/build.rs:8-11 | a gzip `data/` directory with `foo`, `empty` and `inner/boom` builds, compiles, serves each file's bytes, reports `data/nope` not found, and has exactly those three keys |

## Left out

- Filesystem effects are abstracted. The `Disk` holds file contents and a set of paths whose output file cannot be created. Directory creation, `create_dir_all` failures and I/O errors in the middle of a copy are not modelled separately.
- Gzip is a parameter (`Codec`). Its bit-level format, the encoder's compression level and the flushes on drop are out of scope. The round trips assume only `Lossless`.
- `build`'s output file (creating `OUT_DIR/<out_name>`, the header line, the phf map's hash layout, the closing brace) is not modelled, because it is I/O and third-party code. `Generated` keeps the static's name and the key-to-value table that the phf map holds.
- `WalkDir` is an input sequence of visited items (path and directory flag) or walk errors. Link following and traversal order belong to walkdir.
- `Codegen.InPath`: its own contract states only the absolute cases. Containment of a relative path in `CARGO_MANIFEST_DIR` is the separate lemma `Codegen.RelativePathsStayInside`, so that proofs that mention source paths do not carry the sequence facts.
- `Codegen.OutPath`: likewise, containment of a relative path in `OUT_DIR` is stated by `Codegen.RelativePathsStayInside`, not by the function's contract.
- `Paths.Join`: models only POSIX `Path::join` (a leading `/` is absolute). It always glues with `/`, where Windows uses `\`. Windows drive and UNC prefixes are not modelled. Its contract states the absolute cases; the relative case is `Paths.JoinRelative`.
- The `Disk` treats two spellings of a path (`a\b` and `a/b`) as different files, while Windows treats them as one. The gzip theorems therefore need the output path to be its own key (`IsKey(OutPath)`, or `OutputsAreKeys` for a directory), which on Windows means it holds no backslash.
- `Pipeline.RoundTripGzip`: on Windows, covers only paths whose output path holds no backslash (its `IsKey(OutPath)` hypothesis), because of the `Disk` limitation above.
- `Pipeline.GzipDirRoundTrip`: on Windows, covers only walks whose output paths hold no backslash (its `OutputsAreKeys` hypothesis), for the same reason; `Pipeline.EncodedServes` carries the same hypothesis, and `Pipeline.AbsoluteGzipLosesSource` needs its absolute path to be its own key. It also assumes, through `Separated`, that no walked file's output is any walked file's source, and that distinct walked files have distinct keys and distinct outputs. Without this, one `add_file` could overwrite another's source or entry (see `Pipeline.AbsoluteGzipLosesSource` for the single-file case).
- `Pipeline.GzipDirRecords` and `Pipeline.GzipDirServes`: stated for a non-Windows platform only. They serve the worked `data/` example, whose paths are their own keys there; the general Windows case is `Pipeline.GzipDirRoundTrip`.
- `Codes.Parse`: the compiler's reading takes the path between fixed delimiters rather than lexing a Rust string literal. A path containing `"` or a backslash (possible on non-Windows hosts) would break the generated code, and the model does not show that.
- The `file` and `dir` wrappers are left out: they only `unwrap` `add_file` and `add_dir`. `Codegen.Run` models the chaining, stopping at the first error.
- `Runtime.Read`: the passthrough stream is a snapshot of the file at opening time. Later changes to the file and read errors after opening are not modelled.
- Unset `CARGO_MANIFEST_DIR` or `OUT_DIR` are not modelled, because Cargo always sets both variables when it runs a build script. The gzip theorems require `OUT_DIR` to be absolute, as Cargo always sets it. The model has no working directory. With a relative `OUT_DIR`, the include path `build` generates (the output path joined onto the manifest directory) would name a different `Disk` file from the one the encoder wrote.
- The `parent().unwrap()` panic (codegen/src/lib.rs:95) is not modelled. It fires only when the output path has no parent, that is for a root path such as `add_file("/", Gzip)`. The `Disk` models files only and has no notion of a root directory: the model treats `/` as an ordinary file path, so `add_file("/", Gzip)` fails with `OpenFailed("/")` on a `Disk` without that entry instead of panicking.
- Error kinds are coarser in Rust than in the model. `IoError` tells `KeyNotFound` apart from `OpenFailed(path)`, and names the path. Rust's `File::open` error carries no path. A missing passthrough file also has the same `ErrorKind::NotFound` as the "Key not found" error (lib/src/lib.rs:69). So `Runtime.Get`'s "not found exactly when the key is missing" holds for the model's `KeyNotFound`. A caller who looks only at `ErrorKind` cannot tell the two apart.
- The lossy UTF-8 conversion of the caller's path (codegen/src/lib.rs:77) and of the include path (line 146) is not modelled, because paths here are already strings. A path that is not valid UTF-8 would have its bad bytes replaced in the key and in the generated include path.
- A gzip lookup without the `flate2` feature panics. `Runtime.Get` and `Runtime.Read` exclude it by precondition.
- `Cow`, `Box<Read>`, lifetimes and the order of phf keys are out of scope. `file_names` yields keys in an unspecified order, which `Runtime.FileNamesOf` picks arbitrarily.
- The older single-crate generator in `src/lib.rs` and the example program (`example/src/main.rs`) are not part of this model. They are separate from the two crates modelled here.
- A build script that generates on one platform and compiles the accessor for another can get different `as_key` behaviour on each side. The pipeline lemmas assume a single platform.

=== FILE: codegen.dfy ===
/**
 The build-time generator `IncludeDir`: a builder that collects
 `key -> (compression, path)` entries, gzip-encodes files into the output
 directory on request, and finally turns every entry into the code string of
 the generated table.
 */
module Codegen {
  import opened Common
  import opened Paths
  import opened Codes

  /** What the build script learns from its environment: the crate's manifest
      directory, cargo's output directory, and the host platform. */
  datatype BuildEnv = BuildEnv(manifestDir: string, outDir: string, platform: Platform)

  /** A recorded file: its tag and the path its bytes are included from. */
  datatype Entry = Entry(comp: Compression, path: string)

  /** The builder: entries by key, the name of the generated static, and the
      global passthrough flag. */
  datatype IncludeDir = IncludeDir(files: map<string, Entry>, name: string, passthrough: bool)

  /** The result of a fallible builder call: the builder and filesystem
      afterwards, and what the call returned. */
  datatype Step = Step(gen: IncludeDir, disk: Disk, status: Result<(), IoError>)

  /** One item of a recursive directory walk (symbolic links followed). */
  datatype WalkItem = Visited(path: string, isDir: bool) | WalkFailed

  /** What every builder reachable from `start` satisfies: keys are already
      normalised and passthrough entries carry no path. */
  ghost predicate Valid(platform: Platform, g: IncludeDir) {
    forall k :: k in g.files ==> IsKey(platform, k) && (g.files[k].comp == Passthrough ==> g.files[k].path == "")
  }

  /** The entry recorded for every passthrough file. */
  const PassthroughEntry: Entry := Entry(Passthrough, "")

  /** `start`: an empty builder with passthrough off. */
  function Start(staticName: string): (g: IncludeDir)
    ensures g.files == map[] && g.name == staticName && !g.passthrough
    ensures forall platform :: Valid(platform, g)
  {
    IncludeDir(map[], staticName, false)
  }

  /** `passthrough`: sets the global flag and nothing else. */
  function SetPassthrough(g: IncludeDir): (r: IncludeDir)
    ensures r.passthrough
    ensures r.files == g.files && r.name == g.name
    ensures forall platform :: Valid(platform, g) ==> Valid(platform, r)
  {
    g.(passthrough := true)
  }

  /** Where a gzip file is read from: the path under the manifest directory,
      or the path itself when it is absolute. */
  function InPath(env: BuildEnv, path: string): (p: string)
    ensures IsAbsolute(path) ==> p == path
    ensures IsAbsolute(env.manifestDir) ==> IsAbsolute(p)
  {
    Join(env.manifestDir, path)
  }

  /** Where a gzip file is encoded to: the path under the output directory.
      An absolute path escapes it, and then source and output are one file. */
  function OutPath(env: BuildEnv, path: string): (p: string)
    ensures IsAbsolute(path) ==> p == path && p == InPath(env, path)
    ensures IsAbsolute(env.outDir) ==> IsAbsolute(p)
  {
    Join(env.outDir, path)
  }

  /** A relative path stays inside its directories: the source lies under the
      manifest directory and the output under the output directory. */
  lemma RelativePathsStayInside(env: BuildEnv, path: string)
    requires !IsAbsolute(path)
    ensures Under(env.manifestDir, path, InPath(env, path))
    ensures Under(env.outDir, path, OutPath(env, path))
  {
    JoinRelative(env.manifestDir, path);
    JoinRelative(env.outDir, path);
  }

  /** `add_file`. The global flag or a per-call `Passthrough` wins and
      records a passthrough entry; `None` records the path itself; `Gzip`
      opens the source, creates the output file and encodes into it, failing
      before anything is recorded if either step fails. The output file is
      created (and so truncated) before the source is read, so when both are
      the same file the encoder sees no bytes. */
  function AddFile(g: IncludeDir, env: BuildEnv, disk: Disk, codec: Codec, path: string, comp: Compression): (r: Step)
    ensures r.gen.name == g.name && r.gen.passthrough == g.passthrough
    // error before mutation, and only in the gzip branch
    ensures r.status.Err? ==> r.gen == g && r.disk == disk && !g.passthrough && comp == Gzip
    // insertion is map insertion under the normalised key
    ensures r.status.Ok? ==>
      var key := AsKey(env.platform, path);
      key in r.gen.files && r.gen.files == g.files[key := r.gen.files[key]]
    // precedence: passthrough first, reading nothing
    ensures g.passthrough || comp == Passthrough ==>
      r.status.Ok? && r.disk == disk && r.gen.files[AsKey(env.platform, path)] == PassthroughEntry
    ensures !g.passthrough && comp == Compression.None ==>
      r.status.Ok? && r.disk == disk && r.gen.files[AsKey(env.platform, path)] == Entry(Compression.None, path)
    ensures !g.passthrough && comp == Gzip ==>
      && (r.status.Ok? <==> InPath(env, path) in disk.contents && OutPath(env, path) !in disk.locked)
      && (InPath(env, path) !in disk.contents ==> r.status == Err(OpenFailed(InPath(env, path))))
      && (r.status.Ok? ==>
            && r.gen.files[AsKey(env.platform, path)] == Entry(Gzip, OutPath(env, path))
            && r.disk.locked == disk.locked
            && r.disk.contents == disk.contents[OutPath(env, path) :=
                 codec.encode(if OutPath(env, path) == InPath(env, path) then [] else disk.contents[InPath(env, path)])])
    ensures Valid(env.platform, g) ==> Valid(env.platform, r.gen)
  {
    var key := AsKey(env.platform, path);
    AsKeyIdempotent(env.platform, path);
    if g.passthrough || comp == Passthrough then
      Step(g.(files := g.files[key := PassthroughEntry]), disk, Ok(()))
    else if comp == Compression.None then
      Step(g.(files := g.files[key := Entry(comp, path)]), disk, Ok(()))
    else
      assert comp.Gzip?;
      var inPath, outPath := InPath(env, path), OutPath(env, path);
      if inPath !in disk.contents then Step(g, disk, Err(OpenFailed(inPath)))
      else if outPath in disk.locked then Step(g, disk, Err(CreateFailed(outPath)))
      else
        var source := if outPath == inPath then [] else disk.contents[inPath];
        Step(g.(files := g.files[key := Entry(Gzip, outPath)]),
             disk.(contents := disk.contents[outPath := codec.encode(source)]),
             Ok(()))
  }

  /** Some non-directory item of the walk normalises to `k`. */
  ghost predicate YieldsKey(platform: Platform, walk: seq<WalkItem>, k: string) {
    exists i :: 0 <= i < |walk| && walk[i].Visited? && !walk[i].isDir && AsKey(platform, walk[i].path) == k
  }

  /** The keys of the files (not directories) a walk visits. */
  function WalkedKeys(platform: Platform, walk: seq<WalkItem>): (keys: set<string>)
    ensures forall i :: 0 <= i < |walk| && walk[i].Visited? && !walk[i].isDir ==> AsKey(platform, walk[i].path) in keys
    ensures forall k :: k in keys ==> YieldsKey(platform, walk, k)
    ensures forall k :: k in keys ==> IsKey(platform, k)
  {
    if |walk| == 0 then {}
    else
      var rest := WalkedKeys(platform, walk[1..]);
      match walk[0]
      case Visited(p, isDir) =>
        if isDir then rest
        else
          AsKeyIdempotent(platform, p);
          {AsKey(platform, p)} + rest
      case WalkFailed => rest
  }

  /** `add_dir`: `add_file` with the same compression on every file of the
      walk, skipping directories and walk errors, stopping at the first
      `add_file` error with everything added before it kept. */
  function AddDir(g: IncludeDir, env: BuildEnv, disk: Disk, codec: Codec, walk: seq<WalkItem>, comp: Compression): (r: Step)
    decreases |walk|
    ensures r.gen.name == g.name && r.gen.passthrough == g.passthrough
    ensures g.files.Keys <= r.gen.files.Keys <= g.files.Keys + WalkedKeys(env.platform, walk)
    ensures r.status.Ok? ==> WalkedKeys(env.platform, walk) <= r.gen.files.Keys
    ensures r.status.Err? ==> !g.passthrough && comp == Gzip
    ensures Valid(env.platform, g) ==> Valid(env.platform, r.gen)
  {
    if |walk| == 0 then Step(g, disk, Ok(()))
    else match walk[0]
      case Visited(p, isDir) =>
        if isDir then AddDir(g, env, disk, codec, walk[1..], comp)
        else
          var s := AddFile(g, env, disk, codec, p, comp);
          if s.status.Err? then s else AddDir(s.gen, env, s.disk, codec, walk[1..], comp)
      case WalkFailed => AddDir(g, env, disk, codec, walk[1..], comp)
  }

  /** A walk split in two is the first part followed by the second, unless
      the first part already failed: `add_dir` stops at its first error. */
  lemma {:induction false} AddDirAppend(g: IncludeDir, env: BuildEnv, disk: Disk, codec: Codec,
                                        front: seq<WalkItem>, back: seq<WalkItem>, comp: Compression)
    decreases |front|
    ensures
      var s := AddDir(g, env, disk, codec, front, comp);
      AddDir(g, env, disk, codec, front + back, comp)
        == if s.status.Err? then s else AddDir(s.gen, env, s.disk, codec, back, comp)
  {
    if |front| == 0 {
      assert front + back == back;
    } else {
      assert (front + back)[0] == front[0];
      assert (front + back)[1..] == front[1..] + back;
      match front[0]
      case Visited(p, isDir) =>
        if isDir {
          AddDirAppend(g, env, disk, codec, front[1..], back, comp);
        } else {
          var s := AddFile(g, env, disk, codec, p, comp);
          if s.status.Ok? {
            AddDirAppend(s.gen, env, s.disk, codec, front[1..], back, comp);
          }
        }
      case WalkFailed =>
        AddDirAppend(g, env, disk, codec, front[1..], back, comp);
    }
  }

  /** Directories and walk errors are skipped: a walk that visits no file
      changes nothing and cannot fail. */
  lemma {:induction false} AddDirSkips(g: IncludeDir, env: BuildEnv, disk: Disk, codec: Codec,
                                       walk: seq<WalkItem>, comp: Compression)
    requires forall i :: 0 <= i < |walk| ==> walk[i].WalkFailed? || walk[i].isDir
    decreases |walk|
    ensures AddDir(g, env, disk, codec, walk, comp) == Step(g, disk, Ok(()))
  {
    if |walk| > 0 {
      AddDirSkips(g, env, disk, codec, walk[1..], comp);
    }
  }

  /** A walk that visits exactly one file, after any number of directories
      and walk errors, is one `add_file` of that file. */
  lemma AddDirOneFile(g: IncludeDir, env: BuildEnv, disk: Disk, codec: Codec,
                      walk: seq<WalkItem>, comp: Compression)
    requires forall i :: 0 <= i < |walk| ==> walk[i].WalkFailed? || walk[i].isDir
    ensures forall p :: AddDir(g, env, disk, codec, walk + [Visited(p, false)], comp) == AddFile(g, env, disk, codec, p, comp)
  {
    AddDirSkips(g, env, disk, codec, walk, comp);
    forall p
      ensures AddDir(g, env, disk, codec, walk + [Visited(p, false)], comp) == AddFile(g, env, disk, codec, p, comp)
    {
      AddDirAppend(g, env, disk, codec, walk, [Visited(p, false)], comp);
      var s := AddFile(g, env, disk, codec, p, comp);
      if s.status.Ok? {
        assert AddDir(s.gen, env, s.disk, codec, [], comp) == Step(s.gen, s.disk, Ok(()));
      }
    }
  }

  /** Under the global flag or a `Passthrough` policy, `add_dir` cannot fail,
      touches no file, and records exactly the walked files, each as a
      passthrough entry, on top of what was there. */
  lemma {:induction false} AddDirPassthrough(g: IncludeDir, env: BuildEnv, disk: Disk, codec: Codec,
                                             walk: seq<WalkItem>, comp: Compression)
    requires g.passthrough || comp == Passthrough
    decreases |walk|
    ensures
      var r := AddDir(g, env, disk, codec, walk, comp);
      && r.status.Ok?
      && r.disk == disk
      && r.gen.files == g.files + PassthroughEntries(WalkedKeys(env.platform, walk))
  {
    if |walk| == 0 {
      assert g.files + PassthroughEntries({}) == g.files;
    } else {
      var rest := walk[1..];
      var r := AddDir(g, env, disk, codec, walk, comp);
      if walk[0].Visited? && !walk[0].isDir {
        var s := AddFile(g, env, disk, codec, walk[0].path, comp);
        assert r == AddDir(s.gen, env, s.disk, codec, rest, comp);
        AddDirPassthrough(s.gen, env, s.disk, codec, rest, comp);
        var key := AsKey(env.platform, walk[0].path);
        assert WalkedKeys(env.platform, walk) == {key} + WalkedKeys(env.platform, rest);
        PassthroughEntriesInsert(g.files, key, WalkedKeys(env.platform, rest));
      } else {
        assert r == AddDir(g, env, disk, codec, rest, comp);
        AddDirPassthrough(g, env, disk, codec, rest, comp);
        assert WalkedKeys(env.platform, walk) == WalkedKeys(env.platform, rest);
      }
    }
  }

  /** Every key of `keys` mapped to the passthrough entry. */
  function PassthroughEntries(keys: set<string>): (m: map<string, Entry>)
    ensures m.Keys == keys
    ensures forall k :: k in m ==> m[k] == PassthroughEntry
  {
    map k | k in keys :: PassthroughEntry
  }

  lemma PassthroughEntriesInsert(files: map<string, Entry>, key: string, keys: set<string>)
    ensures files[key := PassthroughEntry] + PassthroughEntries(keys) == files + PassthroughEntries({key} + keys)
  {
  }

  /** A builder call, as a build script chains them. */
  datatype Call =
    | CallPassthrough
    | CallAddFile(path: string, comp: Compression)
    | CallAddDir(walk: seq<WalkItem>, comp: Compression)

  /** A chain of builder calls, stopping at the first error. No call renames
      the static, clears the passthrough flag or removes a recorded key. */
  function Run(g: IncludeDir, env: BuildEnv, disk: Disk, codec: Codec, calls: seq<Call>): (r: Step)
    decreases |calls|
    ensures r.gen.name == g.name
    ensures g.passthrough ==> r.gen.passthrough
    ensures g.files.Keys <= r.gen.files.Keys
  {
    if |calls| == 0 then Step(g, disk, Ok(()))
    else
      var s := match calls[0]
        case CallPassthrough => Step(SetPassthrough(g), disk, Ok(()))
        case CallAddFile(p, c) => AddFile(g, env, disk, codec, p, c)
        case CallAddDir(w, c) => AddDir(g, env, disk, codec, w, c);
      if s.status.Err? then s else Run(s.gen, env, s.disk, codec, calls[1..])
  }

  /** Every builder a build script can reach from `start` is valid. */
  lemma {:induction false} RunPreservesValid(g: IncludeDir, env: BuildEnv, disk: Disk, codec: Codec, calls: seq<Call>)
    requires Valid(env.platform, g)
    decreases |calls|
    ensures Valid(env.platform, Run(g, env, disk, codec, calls).gen)
  {
    if |calls| > 0 {
      var s := match calls[0]
        case CallPassthrough => Step(SetPassthrough(g), disk, Ok(()))
        case CallAddFile(p, c) => AddFile(g, env, disk, codec, p, c)
        case CallAddDir(w, c) => AddDir(g, env, disk, codec, w, c);
      if s.status.Ok? {
        RunPreservesValid(s.gen, env, s.disk, codec, calls[1..]);
      }
    }
  }

  /** Nothing resets the passthrough flag: once set, every later call
      succeeds, reads and writes no file, and whatever it records is a
      passthrough entry. */
  lemma {:induction false} PassthroughSticky(g: IncludeDir, env: BuildEnv, disk: Disk, codec: Codec, calls: seq<Call>)
    requires g.passthrough
    decreases |calls|
    ensures
      var r := Run(g, env, disk, codec, calls);
      && r.status.Ok?
      && r.disk == disk
      && r.gen.passthrough
      && r.gen.name == g.name
      && forall k :: k in r.gen.files ==> (k in g.files && r.gen.files[k] == g.files[k]) || r.gen.files[k] == PassthroughEntry
  {
    if |calls| > 0 {
      var s := match calls[0]
        case CallPassthrough => Step(SetPassthrough(g), disk, Ok(()))
        case CallAddFile(p, c) => AddFile(g, env, disk, codec, p, c)
        case CallAddDir(w, c) => AddDir(g, env, disk, codec, w, c);
      if calls[0].CallAddDir? {
        AddDirPassthrough(g, env, disk, codec, calls[0].walk, calls[0].comp);
      }
      assert s.status.Ok? && s.disk == disk && s.gen.passthrough;
      assert forall k :: k in s.gen.files ==> (k in g.files && s.gen.files[k] == g.files[k]) || s.gen.files[k] == PassthroughEntry;
      PassthroughSticky(s.gen, env, s.disk, codec, calls[1..]);
    }
  }

  /** Where the compiled crate includes a non-passthrough entry's bytes from:
      the entry's path under the manifest directory, normalised. */
  function IncludePath(env: BuildEnv, e: Entry): string {
    AsKey(env.platform, Join(env.manifestDir, e.path))
  }

  /** The code a generated value is made of. Passthrough entries become the
      placeholder; the others include the normalised `manifest/path`, which
      for a gzip entry is its (absolute) output file. */
  function CodeOf(env: BuildEnv, e: Entry): (c: Code)
    ensures WellFormed(c)
    ensures c.PassthroughSlot? <==> e.comp == Passthrough
    ensures c.Included? ==> c.comp == e.comp && c.path == IncludePath(env, e)
  {
    if e.comp == Passthrough then PassthroughSlot
    else Included(e.comp, IncludePath(env, e))
  }

  /** The generated table: the static's name and the code string under each key. */
  datatype Generated = Generated(name: string, entries: map<string, string>)

  /** `build`: one generated value per recorded key, under the key
      normalised once more (which changes nothing). Passthrough entries get
      the fixed placeholder, so `Display` is never asked to print
      `Passthrough`; every other value reads back as its tag and path. */
  function Build(g: IncludeDir, env: BuildEnv): (out: Generated)
    requires Valid(env.platform, g)
    ensures out.name == g.name
    ensures out.entries.Keys == g.files.Keys
    ensures forall k :: k in g.files && g.files[k].comp == Passthrough ==> out.entries[k] == PassthroughCode
    ensures forall k :: k in g.files ==> Parse(out.entries[k]) == Some(CodeOf(env, g.files[k]))
  {
    var entries := map k | k in g.files :: AsKey(env.platform, k) := Render(CodeOf(env, g.files[k]));
    assert forall k :: k in g.files ==> AsKey(env.platform, k) == k;
    assert entries.Keys == g.files.Keys;
    Generated(g.name, entries)
  }
}

=== FILE: codes.dfy ===
/**
 The code strings the generator writes as the values of the generated table,
 and how the compiled crate reads them back. Every value is either the fixed
 passthrough placeholder or a `(Compression::<tag>, include_bytes!("<path>")
 as &'static [u8])` expression.
 */
module Codes {
  import opened Common

  /** What one generated value denotes. */
  datatype Code =
    | PassthroughSlot                        // no bytes; read the file at run time
    | Included(comp: Compression, path: string)  // bytes of the file at `path`, stored as `comp`

  /** An `Included` value never carries the passthrough tag. */
  predicate WellFormed(c: Code) {
    c.Included? ==> c.comp != Passthrough
  }

  const PassthroughCode: string := "(Compression::Passthrough, &[] as &'static [u8])"
  const Prefix: string := "(Compression::"
  const IncludeOpen: string := ", include_bytes!(\""
  const IncludeClose: string := "\") as &'static [u8])"
  /** Both printable tags are four characters long. */
  const TagLength: nat := 4
  const HeadLength: nat := |Prefix| + TagLength + |IncludeOpen|

  /** Reads a tag name back as the variant it names. */
  function ReadTag(name: string): Option<Compression> {
    if name == "None" then Some(Compression.None)
    else if name == "Gzip" then Some(Gzip)
    else Option.None
  }

  /** The `Display` of a compression tag. It panics on `Passthrough`, which
      is therefore a precondition; the printed name reads back as the tag. */
  function Display(c: Compression): (name: string)
    requires c != Passthrough
    ensures |name| == TagLength
    ensures ReadTag(name) == Some(c)
  {
    match c
    case None => "None"
    case Gzip => "Gzip"
  }

  /** The compiler's reading of a generated value; anything that is not of
      one of the two generated shapes does not compile. */
  function Parse(code: string): (r: Option<Code>)
    ensures r.Some? ==> WellFormed(r.value)
  {
    if code == PassthroughCode then Some(PassthroughSlot)
    else if |code| < HeadLength + |IncludeClose| then Option.None
    else if code[..|Prefix|] != Prefix
         || code[|Prefix| + TagLength..HeadLength] != IncludeOpen
         || code[|code| - |IncludeClose|..] != IncludeClose then Option.None
    else match ReadTag(code[|Prefix|..|Prefix| + TagLength])
      case Some(comp) => Some(Included(comp, code[HeadLength..|code| - |IncludeClose|]))
      case None => Option.None
  }

  /** An include expression reads back as its tag and path, whatever the path. */
  lemma IncludedReadsBack(comp: Compression, path: string)
    requires comp != Passthrough
    ensures Parse(Prefix + Display(comp) + IncludeOpen + path + IncludeClose) == Some(Included(comp, path))
  {
    var name := Display(comp);
    var code := Prefix + name + IncludeOpen + path + IncludeClose;
    assert code[|Prefix|] == name[0];
    assert name[0] != 'P';
    assert PassthroughCode[|Prefix|] == 'P';
    assert code != PassthroughCode;
    assert code[..|Prefix|] == Prefix;
    assert code[|Prefix|..|Prefix| + TagLength] == name;
    assert code[|Prefix| + TagLength..HeadLength] == IncludeOpen;
    assert code[|code| - |IncludeClose|..] == IncludeClose;
    assert code[HeadLength..|code| - |IncludeClose|] == path;
  }

  /** The source text of a generated value: the fixed placeholder, or the
      tag's name and the path spliced into the `include_bytes!` expression.
      The compiler reads it back as the value it was generated from, so the
      generated table loses no (tag, path) information. */
  function Render(c: Code): (code: string)
    requires WellFormed(c)
    ensures Parse(code) == Some(c)
  {
    match c
    case PassthroughSlot => PassthroughCode
    case Included(comp, path) =>
      IncludedReadsBack(comp, path);
      Prefix + Display(comp) + IncludeOpen + path + IncludeClose
  }

  /** Distinct values render to distinct text. */
  lemma RenderInjective(c: Code, d: Code)
    requires WellFormed(c) && WellFormed(d)
    ensures Render(c) == Render(d) ==> c == d
  {
  }
}

=== FILE: common.dfy ===
/**
 Values both halves share: byte strings, the compression tag, the I/O
 errors, and the abstract stand-ins for the filesystem and the gzip codec.
 */
module Common {

  type Bytes = seq<bv8>

  datatype Option<+T> = None | Some(value: T)

  datatype Result<+T, +E> = Ok(value: T) | Err(error: E)

  /** How an entry's bytes are stored: verbatim, as a gzip stream, or not at
      all (read from the filesystem on every access). */
  datatype Compression = None | Gzip | Passthrough

  /** The failures an operation can report. Rust folds all of them into one
      `io::Error`; they are told apart here by where they arise. */
  datatype IoError =
    | KeyNotFound                 // the accessor's lookup missed
    | OpenFailed(path: string)    // `File::open` on a missing file
    | CreateFailed(path: string)  // `create_dir_all` or `File::create` refused
    | Corrupt(reason: string)     // the gzip decoder rejected the stream

  /** The filesystem: file contents by path, and the paths where creating a
      directory or file fails. */
  datatype Disk = Disk(contents: map<string, Bytes>, locked: set<string>)

  /** Opening and reading a whole file. */
  function ReadFile(disk: Disk, path: string): (r: Result<Bytes, IoError>)
    ensures r.Ok? <==> path in disk.contents
    ensures r.Ok? ==> r.value == disk.contents[path]
    ensures r.Err? ==> r.error == OpenFailed(path)
  {
    if path in disk.contents then Ok(disk.contents[path]) else Err(OpenFailed(path))
  }

  /** The gzip codec, left uninterpreted: `encode` compresses, `header` is the
      header check done when a decoder is opened, `inflate` decodes the body. */
  datatype Codec = Codec(
    encode: Bytes -> Bytes,
    header: Bytes -> Result<(), string>,
    inflate: Bytes -> Result<Bytes, string>)

  /** The assumption, never proved here, that decoding undoes encoding. */
  ghost predicate Lossless(codec: Codec) {
    forall b: Bytes :: codec.header(codec.encode(b)) == Ok(()) && codec.inflate(codec.encode(b)) == Ok(b)
  }
}

=== FILE: paths.dfy ===
/**
 Path handling shared by the generator and the accessor: the key
 normalisation `as_key`, which both crates define identically, and the
 `Path::join` used to locate source and output files.
 */
module Paths {

  /** The platform a crate was compiled for; only Windows rewrites separators. */
  datatype Platform = Windows | Other

  /** `s` with every occurrence of `from` replaced by `to`. */
  function Replace(s: string, from: char, to: char): (r: string)
    ensures |r| == |s|
    ensures forall i :: 0 <= i < |s| ==> r[i] == (if s[i] == from then to else s[i])
  {
    if |s| == 0 then [] else [if s[0] == from then to else s[0]] + Replace(s[1..], from, to)
  }

  /** The table key of `path`: on Windows every backslash becomes a forward
      slash, elsewhere the path is its own key. */
  function AsKey(platform: Platform, path: string): (key: string)
    ensures platform == Other ==> key == path
    ensures platform == Windows ==> '\\' !in key
    ensures |key| == |path|
    ensures forall i :: 0 <= i < |path| && path[i] != '\\' ==> key[i] == path[i]
  {
    if platform == Windows then Replace(path, '\\', '/') else path
  }

  /** A string that normalisation leaves alone, i.e. one that can be a table key. */
  predicate IsKey(platform: Platform, s: string) {
    AsKey(platform, s) == s
  }

  /** A string is a key exactly when the platform keeps paths as they are or
      the string holds no backslash. */
  lemma KeyCharacterisation(platform: Platform, s: string)
    ensures IsKey(platform, s) <==> platform == Other || '\\' !in s
  {
    if platform == Windows && '\\' !in s {
      var k := AsKey(platform, s);
      assert forall i :: 0 <= i < |s| ==> k[i] == s[i];
    }
  }

  /** Normalising twice is normalising once, so re-applying `as_key` to a
      stored key, as `build` does, changes nothing. */
  lemma AsKeyIdempotent(platform: Platform, path: string)
    ensures IsKey(platform, AsKey(platform, path))
  {
    KeyCharacterisation(platform, AsKey(platform, path));
  }

  /** On Windows a backslash and a forward slash name the same key; the
      separators are the only characters normalisation may change. */
  lemma SeparatorsMerge(prefix: string, suffix: string)
    ensures AsKey(Windows, prefix + "\\" + suffix) == AsKey(Windows, prefix + "/" + suffix)
    ensures AsKey(Windows, prefix + "/" + suffix) == AsKey(Windows, prefix) + "/" + AsKey(Windows, suffix)
  {
    var a := prefix + "\\" + suffix;
    var b := prefix + "/" + suffix;
    var c := AsKey(Windows, prefix) + "/" + AsKey(Windows, suffix);
    var ka, kb := AsKey(Windows, a), AsKey(Windows, b);
    assert |ka| == |kb| == |c|;
    forall i | 0 <= i < |a|
      ensures ka[i] == kb[i] == c[i]
    {
      if i < |prefix| {
        assert a[i] == b[i] == prefix[i];
      } else if i == |prefix| {
      } else {
        assert a[i] == b[i] == suffix[i - |prefix| - 1];
      }
    }
  }

  /** An absolute path on the platforms the join below describes. */
  predicate IsAbsolute(path: string) {
    |path| > 0 && path[0] == '/'
  }

  /** `base.join(path)`: an absolute `path` replaces the base; otherwise the
      two are glued with one separator (none after an empty base or a base
      that already ends in one). */
  function Join(base: string, path: string): (r: string)
    ensures IsAbsolute(path) ==> r == path
    ensures IsAbsolute(base) ==> IsAbsolute(r)
  {
    if IsAbsolute(path) then path
    else if |base| == 0 || base[|base| - 1] == '/' then base + path
    else base + "/" + path
  }

  /** `r` names `path` inside the directory `dir`: `dir`, then a `/` (the
      last character of `dir` or one added), then `path`, with no overlap. */
  predicate Under(dir: string, path: string, r: string) {
    && dir <= r && |dir| + |path| <= |r| <= |dir| + 1 + |path|
    && r[|r| - |path|..] == path
    && (|dir| == 0 || r[|r| - |path| - 1] == '/')
  }

  /** A relative path lands under the base. */
  lemma JoinRelative(base: string, path: string)
    requires !IsAbsolute(path)
    ensures Under(base, path, Join(base, path))
  {
    var r := Join(base, path);
    if |base| == 0 || base[|base| - 1] == '/' {
      assert r == base + path;
    } else {
      assert r == base + "/" + path;
    }
  }
}

=== FILE: pipeline.dfy ===
/**
 The two halves joined: the generated table is compiled into the accessor's
 static (each `include_bytes!` reads its file from the filesystem as the
 generator left it), and what `get` then returns is related to what the
 generator was given.
 */
module Pipeline {
  import opened Common
  import opened Paths
  import opened Codes
  import opened Codegen
  import Runtime

  /** What one generated value compiles to; `None` when it does not compile
      (a value of neither generated shape, or an included file that is missing). */
  function Compile(code: string, disk: Disk): (r: Option<Runtime.Entry>)
    ensures r.Some? <==> Parse(code).Some? && (Parse(code).value.Included? ==> Parse(code).value.path in disk.contents)
    ensures r.Some? && Parse(code).value.PassthroughSlot? ==> r.value == Runtime.Entry(Passthrough, [])
    ensures r.Some? && Parse(code).value.Included? ==>
      r.value == Runtime.Entry(Parse(code).value.comp, disk.contents[Parse(code).value.path])
  {
    match Parse(code)
    case None => Option.None
    case Some(PassthroughSlot) => Some(Runtime.Entry(Passthrough, []))
    case Some(Included(comp, path)) =>
      if path in disk.contents then Some(Runtime.Entry(comp, disk.contents[path])) else Option.None
  }

  predicate Compiles(out: Generated, disk: Disk) {
    forall k :: k in out.entries ==> Compile(out.entries[k], disk).Some?
  }

  /** The compiled static `Files`, or `None` if some value does not compile. */
  function Embed(out: Generated, disk: Disk): (r: Option<Runtime.Files>)
    ensures r.Some? <==> Compiles(out, disk)
    ensures r.Some? ==> r.value.files.Keys == out.entries.Keys
    ensures r.Some? ==> forall k :: k in out.entries ==> r.value.files[k] == Compile(out.entries[k], disk).value
  {
    if Compiles(out, disk) then Some(Runtime.Files(map k | k in out.entries :: Compile(out.entries[k], disk).value))
    else Option.None
  }

  /** What `get` should give for a recorded entry: the included file as
      stored (decoded for gzip), or the caller's file at run time. */
  function Served(env: BuildEnv, codec: Codec, buildDisk: Disk, runDisk: Disk, e: Codegen.Entry, path: string): Result<Bytes, IoError> {
    match e.comp
    case None => ReadFile(buildDisk, IncludePath(env, e))
    case Gzip =>
      (match ReadFile(buildDisk, IncludePath(env, e))
       case Ok(stored) => Runtime.Inflate(codec, stored)
       case Err(err) => Err(err))
    case Passthrough => ReadFile(runDisk, path)
  }

  /** Generated, compiled and queried (with the decoder available), the table
      answers every path from the builder's entry under its key: not found
      when there is none, otherwise the entry served. Compilation itself
      succeeds exactly when every included file exists. */
  lemma BuiltTableServes(g: IncludeDir, env: BuildEnv, buildDisk: Disk, runDisk: Disk, codec: Codec, path: string)
    requires Valid(env.platform, g)
    ensures Embed(Build(g, env), buildDisk).Some? <==>
      forall k :: k in g.files && g.files[k].comp != Passthrough ==> IncludePath(env, g.files[k]) in buildDisk.contents
    ensures
      var key := AsKey(env.platform, path);
      match Embed(Build(g, env), buildDisk)
      case Some(t) =>
        Runtime.Get(t, Runtime.Target(env.platform, true), runDisk, codec, path)
          == if key in g.files then Served(env, codec, buildDisk, runDisk, g.files[key], path) else Err(KeyNotFound)
      case None => true
  {
    BuiltCompiles(g, env, buildDisk);
    if Embed(Build(g, env), buildDisk).Some? {
      BuiltServes(g, env, buildDisk, runDisk, codec, path);
    }
  }

  /** The generated table compiles exactly when every included file exists. */
  lemma BuiltCompiles(g: IncludeDir, env: BuildEnv, buildDisk: Disk)
    requires Valid(env.platform, g)
    ensures Embed(Build(g, env), buildDisk).Some? <==>
      forall k :: k in g.files && g.files[k].comp != Passthrough ==> IncludePath(env, g.files[k]) in buildDisk.contents
  {
    var out := Build(g, env);
    forall k | k in g.files
      ensures Compile(out.entries[k], buildDisk).Some? <==>
        (g.files[k].comp != Passthrough ==> IncludePath(env, g.files[k]) in buildDisk.contents)
    {
    }
  }

  /** The compiled table answers `get` from the builder's entry under the key. */
  lemma BuiltServes(g: IncludeDir, env: BuildEnv, buildDisk: Disk, runDisk: Disk, codec: Codec, path: string)
    requires Valid(env.platform, g)
    requires Embed(Build(g, env), buildDisk).Some?
    ensures
      var key := AsKey(env.platform, path);
      Runtime.Get(Embed(Build(g, env), buildDisk).value, Runtime.Target(env.platform, true), runDisk, codec, path)
        == if key in g.files then Served(env, codec, buildDisk, runDisk, g.files[key], path) else Err(KeyNotFound)
  {
    var key := AsKey(env.platform, path);
    var out := Build(g, env);
    var t := Embed(out, buildDisk).value;
    if key in g.files {
      assert t.files[key] == Compile(out.entries[key], buildDisk).value;
    }
  }

  /** A `None` file added to a fresh builder is recorded without reading it.
      The crate includes the normalised manifest-joined path: it compiles
      exactly when that file exists, and `get` returns its bytes (whether or
      not the decoder is compiled in). */
  lemma RoundTripNone(name: string, env: BuildEnv, disk: Disk, runDisk: Disk, codec: Codec, path: string, flate2: bool)
    ensures
      var s := AddFile(Start(name), env, disk, codec, path, Compression.None);
      var e := Embed(Build(s.gen, env), s.disk);
      var included := AsKey(env.platform, InPath(env, path));
      && s.status.Ok? && s.disk == disk
      && (e.Some? <==> included in disk.contents)
      && (e.Some? ==> Runtime.Get(e.value, Runtime.Target(env.platform, flate2), runDisk, codec, path) == Ok(disk.contents[included]))
  {
    var s := AddFile(Start(name), env, disk, codec, path, Compression.None);
    var key := AsKey(env.platform, path);
    assert s.gen.files == map[key := Codegen.Entry(Compression.None, path)];
    BuiltCompiles(s.gen, env, disk);
    if Embed(Build(s.gen, env), disk).Some? {
      BuiltServes(s.gen, env, disk, runDisk, codec, path);
    }
  }

  /** An absolute path added with `Gzip` is its own source and output: the
      output file is created, and so emptied, before the source is read, so
      the source is overwritten with the encoding of nothing and `get` serves
      no bytes, whatever the file held. */
  lemma AbsoluteGzipLosesSource(name: string, env: BuildEnv, disk: Disk, runDisk: Disk, codec: Codec, path: string)
    requires Lossless(codec)
    requires IsAbsolute(path) && IsKey(env.platform, path)
    requires path in disk.contents && path !in disk.locked
    ensures
      var s := AddFile(Start(name), env, disk, codec, path, Gzip);
      var e := Embed(Build(s.gen, env), s.disk);
      && s.status.Ok?
      && s.disk.contents[path] == codec.encode([])
      && e.Some?
      && Runtime.Get(e.value, Runtime.Target(env.platform, true), runDisk, codec, path) == Ok([])
  {
    var s := AddFile(Start(name), env, disk, codec, path, Gzip);
    var key := AsKey(env.platform, path);
    assert s.gen.files == map[key := Codegen.Entry(Gzip, path)];
    assert IncludePath(env, s.gen.files[key]) == path;
    BuiltCompiles(s.gen, env, s.disk);
    BuiltServes(s.gen, env, s.disk, runDisk, codec, path);
  }

  /** `available` answers for the keys the builder recorded, as given. Each
      such key is found by `get`; where paths are their own keys, `available`
      and `get` agree on every path. */
  lemma AvailableIsAdded(g: IncludeDir, env: BuildEnv, disk: Disk, runDisk: Disk, codec: Codec, path: string)
    requires Valid(env.platform, g)
    requires Embed(Build(g, env), disk).Some?
    ensures
      var t := Embed(Build(g, env), disk).value;
      var found := Runtime.Get(t, Runtime.Target(env.platform, true), runDisk, codec, path) != Err(KeyNotFound);
      && (Runtime.Available(t, path) <==> path in g.files)
      && (Runtime.Available(t, path) ==> found)
      && (env.platform == Other ==> (Runtime.Available(t, path) <==> found))
  {
  }

  /** A `Gzip` file added to a fresh builder is encoded into the output
      directory; under the assumption that the codec is lossless, `get`
      returns the source file's original bytes. */
  lemma RoundTripGzip(name: string, env: BuildEnv, disk: Disk, runDisk: Disk, codec: Codec, path: string)
    requires Lossless(codec)
    requires IsAbsolute(env.outDir)
    requires IsKey(env.platform, OutPath(env, path))
    requires InPath(env, path) in disk.contents && OutPath(env, path) !in disk.locked
    requires InPath(env, path) != OutPath(env, path)
    ensures
      var s := AddFile(Start(name), env, disk, codec, path, Gzip);
      var e := Embed(Build(s.gen, env), s.disk);
      && s.status.Ok?
      && e.Some?
      && Runtime.Get(e.value, Runtime.Target(env.platform, true), runDisk, codec, path) == Ok(disk.contents[InPath(env, path)])
  {
    var s := AddFile(Start(name), env, disk, codec, path, Gzip);
    var key := AsKey(env.platform, path);
    var outPath := OutPath(env, path);
    assert s.gen.files == map[key := Codegen.Entry(Gzip, outPath)];
    assert IncludePath(env, s.gen.files[key]) == outPath;
    BuiltCompiles(s.gen, env, s.disk);
    BuiltServes(s.gen, env, s.disk, runDisk, codec, path);
  }

  /** A passthrough file (by policy or by the global flag) needs no file at
      generation time, and `get` returns the file as it is on disk at run time. */
  lemma RoundTripPassthrough(g: IncludeDir, env: BuildEnv, disk: Disk, runDisk: Disk, codec: Codec, path: string, comp: Compression)
    requires Valid(env.platform, g)
    requires g.passthrough || comp == Passthrough
    ensures
      var s := AddFile(g, env, disk, codec, path, comp);
      var e := Embed(Build(s.gen, env), s.disk);
      && s.status.Ok?
      && (Embed(Build(g, env), disk).Some? ==> e.Some?)
      && (e.Some? ==> Runtime.Get(e.value, Runtime.Target(env.platform, true), runDisk, codec, path) == ReadFile(runDisk, path))
  {
    var s := AddFile(g, env, disk, codec, path, comp);
    var key := AsKey(env.platform, path);
    assert s.disk == disk && s.gen.files == g.files[key := PassthroughEntry];
    BuiltCompiles(g, env, disk);
    BuiltCompiles(s.gen, env, s.disk);
    if Embed(Build(s.gen, env), s.disk).Some? {
      BuiltServes(s.gen, env, s.disk, runDisk, codec, path);
    }
  }

  /** Some non-directory item of the walk has path `p`. */
  ghost predicate YieldsFile(walk: seq<WalkItem>, p: string) {
    exists i :: 0 <= i < |walk| && walk[i].Visited? && !walk[i].isDir && walk[i].path == p
  }

  /** The paths of the files (not directories) a walk visits. */
  function WalkedFiles(walk: seq<WalkItem>): (paths: set<string>)
    ensures forall i :: 0 <= i < |walk| && walk[i].Visited? && !walk[i].isDir ==> walk[i].path in paths
    ensures forall p :: p in paths ==> YieldsFile(walk, p)
  {
    if |walk| == 0 then {}
    else
      var rest := WalkedFiles(walk[1..]);
      match walk[0]
      case Visited(p, isDir) => if isDir then rest else {p} + rest
      case WalkFailed => rest
  }

  /** Files of one walk that do not get in each other's way: no output file
      is a source file, and distinct files have distinct output files and keys. */
  ghost predicate Separated(env: BuildEnv, files: set<string>) {
    && (forall p, q {:trigger OutPath(env, p), InPath(env, q)} ::
          p in files && q in files ==> OutPath(env, p) != InPath(env, q))
    && (forall p, q {:trigger OutPath(env, p), OutPath(env, q)} ::
          p in files && q in files && OutPath(env, p) == OutPath(env, q) ==> p == q)
    && (forall p, q {:trigger AsKey(env.platform, p), AsKey(env.platform, q)} ::
          p in files && q in files && AsKey(env.platform, p) == AsKey(env.platform, q) ==> p == q)
  }

  /** Every output path is its own key, so the compiled crate includes the
      very file the encoder wrote (on Windows: no output path holds a backslash). */
  ghost predicate OutputsAreKeys(env: BuildEnv, files: set<string>) {
    forall p :: p in files ==> IsKey(env.platform, OutPath(env, p))
  }

  /** What gzip-encoding a subset of `files` has established: every recorded
      key belongs to one of them and points at its output file, which holds
      the encoding of the source as it was originally; source files are
      never written. */
  ghost predicate Encoded(env: BuildEnv, codec: Codec, origin: Disk, files: set<string>, g: IncludeDir, disk: Disk) {
    && disk.locked == origin.locked
    && KeysFrom(env, files, g)
    && SourcesIntact(env, origin, files, disk)
    && OutputsEncoded(env, codec, origin, files, g, disk)
  }

  ghost predicate KeysFrom(env: BuildEnv, files: set<string>, g: IncludeDir) {
    forall k :: k in g.files ==> exists p :: p in files && AsKey(env.platform, p) == k
  }

  ghost predicate SourcesIntact(env: BuildEnv, origin: Disk, files: set<string>, disk: Disk) {
    forall q :: q in files ==> ReadFile(disk, InPath(env, q)) == ReadFile(origin, InPath(env, q))
  }

  ghost predicate OutputsEncoded(env: BuildEnv, codec: Codec, origin: Disk, files: set<string>, g: IncludeDir, disk: Disk) {
    forall p :: p in files && AsKey(env.platform, p) in g.files ==>
      && g.files[AsKey(env.platform, p)] == Codegen.Entry(Gzip, OutPath(env, p))
      && InPath(env, p) in origin.contents
      && OutPath(env, p) !in origin.locked
      && ReadFile(disk, OutPath(env, p)) == Ok(codec.encode(origin.contents[InPath(env, p)]))
  }

  /** One gzip `add_file` of a separated file keeps `Encoded`. */
  lemma AddFileKeepsEncoded(env: BuildEnv, codec: Codec, origin: Disk, files: set<string>,
                            g: IncludeDir, disk: Disk, p: string)
    requires Separated(env, files) && p in files && !g.passthrough
    requires Encoded(env, codec, origin, files, g, disk)
    ensures
      var s := AddFile(g, env, disk, codec, p, Gzip);
      && Encoded(env, codec, origin, files, s.gen, s.disk)
      && (InPath(env, p) in origin.contents && OutPath(env, p) !in origin.locked ==> s.status.Ok?)
  {
    var s := AddFile(g, env, disk, codec, p, Gzip);
    var inPath, outPath := InPath(env, p), OutPath(env, p);
    assert ReadFile(disk, inPath) == ReadFile(origin, inPath);
    if s.status.Ok? {
      var key := AsKey(env.platform, p);
      assert inPath != outPath;
      assert s.gen.files == g.files[key := Codegen.Entry(Gzip, outPath)];
      assert s.disk == Disk(disk.contents[outPath := codec.encode(origin.contents[inPath])], disk.locked);
      EncodedAfterWrite(env, codec, origin, files, g, disk, p, s.gen, s.disk);
    }
  }

  /** The bookkeeping of `AddFileKeepsEncoded` once the new builder and
      filesystem are known. */
  lemma EncodedAfterWrite(env: BuildEnv, codec: Codec, origin: Disk, files: set<string>,
                          g: IncludeDir, disk: Disk, p: string, g': IncludeDir, disk': Disk)
    requires Separated(env, files) && p in files
    requires Encoded(env, codec, origin, files, g, disk)
    requires InPath(env, p) in origin.contents && OutPath(env, p) !in origin.locked
    requires g'.files == g.files[AsKey(env.platform, p) := Codegen.Entry(Gzip, OutPath(env, p))]
    requires disk' == Disk(disk.contents[OutPath(env, p) := codec.encode(origin.contents[InPath(env, p)])], disk.locked)
    ensures Encoded(env, codec, origin, files, g', disk')
  {
    SourcesAfterWrite(env, origin, files, disk, p, disk'.contents[OutPath(env, p)], disk');
    OutputsAfterWrite(env, codec, origin, files, g, disk, p, g', disk');
    KeysAfterWrite(env, files, g, p, g');
  }

  lemma SourcesAfterWrite(env: BuildEnv, origin: Disk, files: set<string>, disk: Disk, p: string, written: Bytes, disk': Disk)
    requires Separated(env, files) && p in files
    requires SourcesIntact(env, origin, files, disk)
    requires disk' == Disk(disk.contents[OutPath(env, p) := written], disk.locked)
    ensures SourcesIntact(env, origin, files, disk')
  {
    forall q | q in files
      ensures ReadFile(disk', InPath(env, q)) == ReadFile(origin, InPath(env, q))
    {
      assert OutPath(env, p) != InPath(env, q);
    }
  }

  lemma OutputsAfterWrite(env: BuildEnv, codec: Codec, origin: Disk, files: set<string>,
                          g: IncludeDir, disk: Disk, p: string, g': IncludeDir, disk': Disk)
    requires Separated(env, files) && p in files
    requires OutputsEncoded(env, codec, origin, files, g, disk)
    requires InPath(env, p) in origin.contents && OutPath(env, p) !in origin.locked
    requires g'.files == g.files[AsKey(env.platform, p) := Codegen.Entry(Gzip, OutPath(env, p))]
    requires disk' == Disk(disk.contents[OutPath(env, p) := codec.encode(origin.contents[InPath(env, p)])], disk.locked)
    ensures OutputsEncoded(env, codec, origin, files, g', disk')
  {
    forall q | q in files && AsKey(env.platform, q) in g'.files
      ensures && g'.files[AsKey(env.platform, q)] == Codegen.Entry(Gzip, OutPath(env, q))
              && InPath(env, q) in origin.contents
              && ReadFile(disk', OutPath(env, q)) == Ok(codec.encode(origin.contents[InPath(env, q)]))
    {
      if q != p {
        assert AsKey(env.platform, q) != AsKey(env.platform, p);
        assert OutPath(env, q) != OutPath(env, p);
      }
    }
  }

  lemma KeysAfterWrite(env: BuildEnv, files: set<string>, g: IncludeDir, p: string, g': IncludeDir)
    requires p in files
    requires KeysFrom(env, files, g)
    requires g'.files.Keys == g.files.Keys + {AsKey(env.platform, p)}
    ensures KeysFrom(env, files, g')
  {
    forall k | k in g'.files
      ensures exists q :: q in files && AsKey(env.platform, q) == k
    {
      if k == AsKey(env.platform, p) {
        assert p in files && AsKey(env.platform, p) == k;
      }
    }
  }

  /** `add_dir` with `Gzip` over files drawn from a separated set keeps
      `Encoded`, and succeeds when every source exists and every output file
      can be created. */
  lemma {:induction false} AddDirKeepsEncoded(env: BuildEnv, codec: Codec, origin: Disk, files: set<string>,
                                              g: IncludeDir, disk: Disk, walk: seq<WalkItem>)
    requires Separated(env, files) && WalkedFiles(walk) <= files && !g.passthrough
    requires Encoded(env, codec, origin, files, g, disk)
    decreases |walk|
    ensures
      var s := AddDir(g, env, disk, codec, walk, Gzip);
      && Encoded(env, codec, origin, files, s.gen, s.disk)
      && ((forall p :: p in WalkedFiles(walk) ==> InPath(env, p) in origin.contents && OutPath(env, p) !in origin.locked)
            ==> s.status.Ok?)
  {
    if |walk| > 0 {
      var rest := walk[1..];
      assert WalkedFiles(rest) <= WalkedFiles(walk);
      if walk[0].Visited? && !walk[0].isDir {
        var p := walk[0].path;
        var s := AddFile(g, env, disk, codec, p, Gzip);
        AddFileKeepsEncoded(env, codec, origin, files, g, disk, p);
        if s.status.Ok? {
          AddDirKeepsEncoded(env, codec, origin, files, s.gen, s.disk, rest);
        }
      } else {
        AddDirKeepsEncoded(env, codec, origin, files, g, disk, rest);
      }
    }
  }

  /** The whole gzip pipeline for a directory, as a build script runs it:
      `start`, `add_dir` with `Gzip`, `build`, compile. If the walked files
      are separated, the output directory is absolute and the codec lossless,
      then `add_dir` succeeds exactly when every source exists and every
      output file can be created, the crate then compiles, and `get` of every
      walked path returns that source file's original bytes. */
  lemma GzipDirRoundTrip(name: string, env: BuildEnv, disk: Disk, runDisk: Disk, codec: Codec, walk: seq<WalkItem>)
    requires Lossless(codec)
    requires IsAbsolute(env.outDir)
    requires Separated(env, WalkedFiles(walk))
    requires OutputsAreKeys(env, WalkedFiles(walk))
    ensures
      var s := AddDir(Start(name), env, disk, codec, walk, Gzip);
      && (s.status.Ok? <==>
            forall p :: p in WalkedFiles(walk) ==> InPath(env, p) in disk.contents && OutPath(env, p) !in disk.locked)
      && (s.status.Ok? ==>
            var e := Embed(Build(s.gen, env), s.disk);
            && e.Some?
            && forall p :: p in WalkedFiles(walk) ==>
                 Runtime.Get(e.value, Runtime.Target(env.platform, true), runDisk, codec, p)
                   == Ok(disk.contents[InPath(env, p)]))
  {
    var files := WalkedFiles(walk);
    var g0 := Start(name);
    var s := AddDir(g0, env, disk, codec, walk, Gzip);
    GzipDirStatus(env, codec, disk, g0, walk);
    if s.status.Ok? {
      AddDirKeepsEncoded(env, codec, disk, files, g0, disk, walk);
      FilesAreWalked(env, walk);
      EncodedServes(env, codec, disk, files, s.gen, s.disk, runDisk);
    }
  }

  /** A gzip `add_dir` from an empty builder over separated files succeeds
      exactly when every source exists and every output can be created. */
  lemma GzipDirStatus(env: BuildEnv, codec: Codec, disk: Disk, g0: IncludeDir, walk: seq<WalkItem>)
    requires Separated(env, WalkedFiles(walk))
    requires g0.files == map[] && !g0.passthrough
    ensures
      var s := AddDir(g0, env, disk, codec, walk, Gzip);
      && (s.status.Ok? <==>
            forall p :: p in WalkedFiles(walk) ==> InPath(env, p) in disk.contents && OutPath(env, p) !in disk.locked)
      && (s.status.Ok? ==> forall p :: p in WalkedFiles(walk) ==> AsKey(env.platform, p) in s.gen.files)
  {
    var files := WalkedFiles(walk);
    var s := AddDir(g0, env, disk, codec, walk, Gzip);
    assert Encoded(env, codec, disk, files, g0, disk);
    AddDirKeepsEncoded(env, codec, disk, files, g0, disk, walk);
    if s.status.Ok? {
      FilesAreWalked(env, walk);
      assert forall p :: p in files ==> AsKey(env.platform, p) in s.gen.files;
      assert OutputsEncoded(env, codec, disk, files, s.gen, s.disk);
    } else {
      AddDirFailure(env, codec, disk, files, g0, disk, walk);
    }
  }

  /** A valid builder whose entries are all `Encoded` compiles, and `get` of
      each of its files returns the original source bytes. */
  lemma EncodedServes(env: BuildEnv, codec: Codec, origin: Disk, files: set<string>, g: IncludeDir, disk: Disk, runDisk: Disk)
    requires Lossless(codec)
    requires IsAbsolute(env.outDir)
    requires Separated(env, files) && OutputsAreKeys(env, files)
    requires Valid(env.platform, g)
    requires Encoded(env, codec, origin, files, g, disk)
    ensures Embed(Build(g, env), disk).Some?
    ensures forall p :: p in files && AsKey(env.platform, p) in g.files ==>
      && InPath(env, p) in origin.contents
      && Runtime.Get(Embed(Build(g, env), disk).value, Runtime.Target(env.platform, true), runDisk, codec, p)
           == Ok(origin.contents[InPath(env, p)])
  {
    forall k | k in g.files && g.files[k].comp != Passthrough
      ensures IncludePath(env, g.files[k]) in disk.contents
    {
      var p :| p in files && AsKey(env.platform, p) == k;
      assert Join(env.manifestDir, OutPath(env, p)) == OutPath(env, p);
    }
    BuiltTableServesAll(g, env, disk, runDisk, codec);
    forall p | p in files && AsKey(env.platform, p) in g.files
      ensures && InPath(env, p) in origin.contents
              && Runtime.Get(Embed(Build(g, env), disk).value, Runtime.Target(env.platform, true), runDisk, codec, p)
                   == Ok(origin.contents[InPath(env, p)])
    {
      ServesEncodedFile(env, codec, g, disk, runDisk, p, origin.contents[InPath(env, p)]);
    }
  }

  /** `get` of one gzip file whose output file holds the encoding of
      `original` returns `original`. */
  lemma ServesEncodedFile(env: BuildEnv, codec: Codec, g: IncludeDir, disk: Disk, runDisk: Disk, p: string, original: Bytes)
    requires Lossless(codec)
    requires IsAbsolute(env.outDir)
    requires Valid(env.platform, g)
    requires Embed(Build(g, env), disk).Some?
    requires AsKey(env.platform, p) in g.files
    requires g.files[AsKey(env.platform, p)] == Codegen.Entry(Gzip, OutPath(env, p))
    requires IsKey(env.platform, OutPath(env, p))
    requires ReadFile(disk, OutPath(env, p)) == Ok(codec.encode(original))
    ensures Runtime.Get(Embed(Build(g, env), disk).value, Runtime.Target(env.platform, true), runDisk, codec, p) == Ok(original)
  {
    BuiltServes(g, env, disk, runDisk, codec, p);
    assert Join(env.manifestDir, OutPath(env, p)) == OutPath(env, p);
    assert Runtime.Inflate(codec, codec.encode(original)) == Ok(original);
  }

  /** Every walked file's key is a walked key. */
  lemma {:induction false} FilesAreWalked(env: BuildEnv, walk: seq<WalkItem>)
    decreases |walk|
    ensures forall p :: p in WalkedFiles(walk) ==> AsKey(env.platform, p) in WalkedKeys(env.platform, walk)
  {
    if |walk| > 0 {
      FilesAreWalked(env, walk[1..]);
    }
  }

  /** A failing gzip `add_dir` met a missing source or a locked output file. */
  lemma {:induction false} AddDirFailure(env: BuildEnv, codec: Codec, origin: Disk, files: set<string>,
                                         g: IncludeDir, disk: Disk, walk: seq<WalkItem>)
    requires Separated(env, files) && WalkedFiles(walk) <= files && !g.passthrough
    requires Encoded(env, codec, origin, files, g, disk)
    requires AddDir(g, env, disk, codec, walk, Gzip).status.Err?
    decreases |walk|
    ensures exists p :: p in WalkedFiles(walk) && (InPath(env, p) !in origin.contents || OutPath(env, p) in origin.locked)
  {
    var rest := walk[1..];
    assert WalkedFiles(rest) <= WalkedFiles(walk);
    if walk[0].Visited? && !walk[0].isDir {
      var p := walk[0].path;
      var s := AddFile(g, env, disk, codec, p, Gzip);
      AddFileKeepsEncoded(env, codec, origin, files, g, disk, p);
      if s.status.Ok? {
        AddDirFailure(env, codec, origin, files, s.gen, s.disk, rest);
      } else {
        assert p in WalkedFiles(walk);
      }
    } else {
      AddDirFailure(env, codec, origin, files, g, disk, rest);
    }
  }

  lemma BuiltTableServesAll(g: IncludeDir, env: BuildEnv, buildDisk: Disk, runDisk: Disk, codec: Codec)
    requires Valid(env.platform, g)
    requires forall k :: k in g.files && g.files[k].comp != Passthrough ==> IncludePath(env, g.files[k]) in buildDisk.contents
    ensures Embed(Build(g, env), buildDisk).Some?
  {
    BuiltCompiles(g, env, buildDisk);
  }

  /** The example crate's layout: `data/foo`, `data/empty` and
      `data/inner/boom` embedded with `Gzip` from a manifest directory
      `/proj` into the output directory `/out`; a path never added is not
      found. */
  lemma DataDirExample(codec: Codec, runDisk: Disk)
    requires Lossless(codec)
    ensures
      var s := AddDir(Start("FILES"), ExampleEnv, ExampleDisk, codec, ExampleWalk, Gzip);
      var e := Embed(Build(s.gen, ExampleEnv), s.disk);
      var target := Runtime.Target(Other, true);
      && s.status.Ok?
      && e.Some?
      && e.value.files.Keys == {"data/foo", "data/empty", "data/inner/boom"}
      && Runtime.Get(e.value, target, runDisk, codec, "data/foo") == Ok([102, 111, 111, 10])
      && Runtime.Get(e.value, target, runDisk, codec, "data/empty") == Ok([])
      && Runtime.Get(e.value, target, runDisk, codec, "data/inner/boom") == Ok([98, 111, 111, 109, 10])
      && Runtime.Get(e.value, target, runDisk, codec, "data/nope") == Err(KeyNotFound)
  {
    ExampleWalkFiles();
    ExampleSeparated();
    ExampleSources();
    ThreeFileDir(ExampleEnv, ExampleDisk, ExampleWalk, codec, runDisk, [102, 111, 111, 10], [98, 111, 111, 109, 10]);
  }

  /** The example crate's layout with the concrete values abstracted. */
  lemma ThreeFileDir(env: BuildEnv, disk: Disk, walk: seq<WalkItem>, codec: Codec, runDisk: Disk, foo: Bytes, boom: Bytes)
    requires Lossless(codec)
    requires IsAbsolute(env.outDir) && env.platform == Other
    requires WalkedFiles(walk) == {"data/foo", "data/empty", "data/inner/boom"}
    requires Separated(env, {"data/foo", "data/empty", "data/inner/boom"})
    requires disk.locked == {}
    requires ReadFile(disk, InPath(env, "data/foo")) == Ok(foo)
    requires ReadFile(disk, InPath(env, "data/empty")) == Ok([])
    requires ReadFile(disk, InPath(env, "data/inner/boom")) == Ok(boom)
    ensures
      var s := AddDir(Start("FILES"), env, disk, codec, walk, Gzip);
      var e := Embed(Build(s.gen, env), s.disk);
      var target := Runtime.Target(Other, true);
      && s.status.Ok?
      && e.Some?
      && e.value.files.Keys == {"data/foo", "data/empty", "data/inner/boom"}
      && Runtime.Get(e.value, target, runDisk, codec, "data/foo") == Ok(foo)
      && Runtime.Get(e.value, target, runDisk, codec, "data/empty") == Ok([])
      && Runtime.Get(e.value, target, runDisk, codec, "data/inner/boom") == Ok(boom)
      && Runtime.Get(e.value, target, runDisk, codec, "data/nope") == Err(KeyNotFound)
  {
    var files := {"data/foo", "data/empty", "data/inner/boom"};
    assert forall p :: p in files ==> InPath(env, p) in disk.contents;
    var s := AddDir(Start("FILES"), env, disk, codec, walk, Gzip);
    GzipDirServes(env, disk, walk, codec, runDisk, files);
    var e := Embed(Build(s.gen, env), s.disk);
    ThreeFileTable(e.value, env, disk, codec, runDisk, foo, boom);
  }

  /** `get` of each of `files` returns the bytes of its source file. */
  ghost predicate ServesSources(t: Runtime.Files, env: BuildEnv, disk: Disk, runDisk: Disk, codec: Codec, files: set<string>) {
    forall p :: p in files ==>
      && InPath(env, p) in disk.contents
      && Runtime.Get(t, Runtime.Target(env.platform, true), runDisk, codec, p) == Ok(disk.contents[InPath(env, p)])
  }

  /** Where paths are their own keys, a gzip walk whose sources all exist
      yields a table keyed by exactly the walked files that serves each
      file's source. */
  lemma GzipDirServes(env: BuildEnv, disk: Disk, walk: seq<WalkItem>, codec: Codec, runDisk: Disk, files: set<string>)
    requires Lossless(codec)
    requires IsAbsolute(env.outDir) && env.platform == Other
    requires WalkedFiles(walk) == files
    requires Separated(env, files)
    requires forall p :: p in files ==> InPath(env, p) in disk.contents
    requires disk.locked == {}
    ensures
      var s := AddDir(Start("FILES"), env, disk, codec, walk, Gzip);
      var e := Embed(Build(s.gen, env), s.disk);
      && s.status.Ok? && e.Some? && e.value.files.Keys == files
      && ServesSources(e.value, env, disk, runDisk, codec, files)
  {
    GzipDirRecords(env, disk, walk, codec, files);
    assert OutputsAreKeys(env, files);
    GzipDirRoundTrip("FILES", env, disk, runDisk, codec, walk);
  }

  /** Where paths are their own keys, a gzip walk whose sources all exist
      succeeds and records exactly the walked files. */
  lemma GzipDirRecords(env: BuildEnv, disk: Disk, walk: seq<WalkItem>, codec: Codec, files: set<string>)
    requires env.platform == Other
    requires WalkedFiles(walk) == files
    requires Separated(env, files)
    requires forall p :: p in files ==> InPath(env, p) in disk.contents
    requires disk.locked == {}
    ensures
      var s := AddDir(Start("FILES"), env, disk, codec, walk, Gzip);
      s.status.Ok? && s.gen.files.Keys == files
  {
    GzipDirStatus(env, codec, disk, Start("FILES"), walk);
    WalkedKeysVerbatim(walk);
  }

  /** Where paths are their own keys, the walked keys are the walked files. */
  lemma {:induction false} WalkedKeysVerbatim(walk: seq<WalkItem>)
    decreases |walk|
    ensures WalkedKeys(Other, walk) == WalkedFiles(walk)
  {
    if |walk| > 0 {
      WalkedKeysVerbatim(walk[1..]);
    }
  }

  /** Reading the three files back from a table that serves their sources. */
  lemma ThreeFileTable(t: Runtime.Files, env: BuildEnv, disk: Disk, codec: Codec, runDisk: Disk, foo: Bytes, boom: Bytes)
    requires env.platform == Other
    requires t.files.Keys == {"data/foo", "data/empty", "data/inner/boom"}
    requires ReadFile(disk, InPath(env, "data/foo")) == Ok(foo)
    requires ReadFile(disk, InPath(env, "data/empty")) == Ok([])
    requires ReadFile(disk, InPath(env, "data/inner/boom")) == Ok(boom)
    requires ServesSources(t, env, disk, runDisk, codec, {"data/foo", "data/empty", "data/inner/boom"})
    ensures
      var target := Runtime.Target(Other, true);
      && Runtime.Get(t, target, runDisk, codec, "data/foo") == Ok(foo)
      && Runtime.Get(t, target, runDisk, codec, "data/empty") == Ok([])
      && Runtime.Get(t, target, runDisk, codec, "data/inner/boom") == Ok(boom)
      && Runtime.Get(t, target, runDisk, codec, "data/nope") == Err(KeyNotFound)
  {
    var target := Runtime.Target(Other, true);
    assert target == Runtime.Target(env.platform, true);
    assert "data/foo" in t.files;
    assert Runtime.Get(t, target, runDisk, codec, "data/foo") == Ok(foo);
    assert "data/empty" in t.files;
    assert Runtime.Get(t, target, runDisk, codec, "data/empty") == Ok([]);
    assert "data/inner/boom" in t.files;
    assert Runtime.Get(t, target, runDisk, codec, "data/inner/boom") == Ok(boom);
    assert "data/nope" !in t.files by {
      // the sixth character tells the four paths apart
      assert "data/nope"[5] == 'n';
      assert "data/foo"[5] == 'f' && "data/empty"[5] == 'e' && "data/inner/boom"[5] == 'i';
    }
  }

  const ExampleEnv: BuildEnv := BuildEnv("/proj", "/out", Other)

  const ExampleDisk: Disk := Disk(map[
    "/proj/data/foo" := [102, 111, 111, 10],
    "/proj/data/empty" := [],
    "/proj/data/inner/boom" := [98, 111, 111, 109, 10]], {})

  const ExampleWalk: seq<WalkItem> := [
    Visited("data", true), Visited("data/foo", false), Visited("data/empty", false),
    Visited("data/inner", true), Visited("data/inner/boom", false)]

  lemma ExampleWalkFiles()
    ensures WalkedFiles(ExampleWalk) == {"data/foo", "data/empty", "data/inner/boom"}
  {
    var w := ExampleWalk;
    assert w[1..][1..][1..][1..][1..] == [];
  }

  lemma ExampleSources()
    ensures ReadFile(ExampleDisk, InPath(ExampleEnv, "data/foo")) == Ok([102, 111, 111, 10])
    ensures ReadFile(ExampleDisk, InPath(ExampleEnv, "data/empty")) == Ok([])
    ensures ReadFile(ExampleDisk, InPath(ExampleEnv, "data/inner/boom")) == Ok([98, 111, 111, 109, 10])
  {
    ExampleJoins("data/foo");
    ExampleJoins("data/empty");
    ExampleJoins("data/inner/boom");
    assert "/proj/" + "data/foo" == "/proj/data/foo";
    assert "/proj/" + "data/empty" == "/proj/data/empty";
    assert "/proj/" + "data/inner/boom" == "/proj/data/inner/boom";
  }

  lemma ExampleJoins(p: string)
    requires p in {"data/foo", "data/empty", "data/inner/boom"}
    ensures OutPath(ExampleEnv, p) == "/out/" + p && InPath(ExampleEnv, p) == "/proj/" + p
  {
  }

  lemma ExampleSeparated()
    ensures Separated(ExampleEnv, {"data/foo", "data/empty", "data/inner/boom"})
  {
    var env, files := ExampleEnv, {"data/foo", "data/empty", "data/inner/boom"};
    forall p, q | p in files && q in files
      ensures OutPath(env, p) != InPath(env, q)
    {
      ExampleJoins(p);
      ExampleJoins(q);
      assert OutPath(env, p)[1] == 'o' && InPath(env, q)[1] == 'p';
    }
    forall p, q | p in files && q in files && OutPath(env, p) == OutPath(env, q)
      ensures p == q
    {
      ExampleJoins(p);
      ExampleJoins(q);
      assert p == OutPath(env, p)[5..];
      assert q == OutPath(env, q)[5..];
    }
  }
}

=== FILE: runtime.dfy ===
/**
 The run-time accessor `Files`: a read-only table from key to (compression,
 stored bytes), queried for membership, enumerated, and read with transparent
 gzip decoding or, for passthrough entries, from the filesystem.
 */
module Runtime {
  import opened Common
  import opened Paths

  /** A table value: the tag and the embedded bytes (empty for passthrough). */
  datatype Entry = Entry(comp: Compression, data: Bytes)

  /** The generated static. */
  datatype Files = Files(files: map<string, Entry>)

  /** The run-time configuration that is fixed when the crate is compiled:
      the target platform and whether the `flate2` feature is enabled. */
  datatype Target = Target(platform: Platform, flate2: bool)

  /** `available`: plain membership, with no key normalisation. */
  function Available(t: Files, path: string): (b: bool)
    ensures b <==> path in t.files
  {
    path in t.files
  }

  predicate Distinct(names: seq<string>) {
    forall i, j :: 0 <= i < j < |names| ==> names[i] != names[j]
  }

  /** The iterator over the table's keys; `pending` are the names still to
      come, in the table's own (unspecified) order. */
  datatype FileNames = FileNames(pending: seq<string>)

  /** `FileNames::next`: the next name and the iterator after it, or nothing
      once every name has been produced. */
  function Next(it: FileNames): (r: (Option<string>, FileNames))
    ensures |it.pending| == 0 <==> r.0 == Option.None
    ensures r.0.Some? ==> [r.0.value] + r.1.pending == it.pending
    ensures r.0.None? ==> r.1 == it
  {
    if |it.pending| == 0 then (Option.None, it)
    else (Some(it.pending[0]), FileNames(it.pending[1..]))
  }

  /** Everything an iterator still yields, by calling `next` until it is exhausted. */
  function Drain(it: FileNames): (names: seq<string>)
    decreases |it.pending|
  {
    var (name, rest) := Next(it);
    match name
    case None => []
    case Some(n) => [n] + Drain(rest)
  }

  /** Draining an iterator yields exactly its pending names, in order. */
  lemma {:induction false} DrainYieldsPending(it: FileNames)
    decreases |it.pending|
    ensures Drain(it) == it.pending
  {
    if |it.pending| > 0 {
      DrainYieldsPending(Next(it).1);
    }
  }

  /** `file_names`: an iterator over every key of the table, each exactly
      once, in an order the table chooses. It reads no payload. */
  method FileNamesOf(t: Files) returns (it: FileNames)
    ensures Distinct(it.pending)
    ensures forall k :: k in it.pending <==> k in t.files
    ensures |it.pending| == |t.files|
  {
    var remaining := t.files.Keys;
    var names: seq<string> := [];
    while remaining != {}
      invariant remaining <= t.files.Keys
      invariant forall k :: k in names ==> k in t.files && k !in remaining
      invariant forall k :: k in t.files ==> k in names || k in remaining
      invariant Distinct(names)
      invariant |names| + |remaining| == |t.files.Keys|
      decreases remaining
    {
      var k :| k in remaining;
      names := names + [k];
      remaining := remaining - {k};
    }
    it := FileNames(names);
  }

  /** Whether `path` normalises to a gzip entry: the only lookups that need the
      decoder, and that panic when the `flate2` feature is off. */
  predicate NeedsDecoder(t: Files, target: Target, path: string) {
    var key := AsKey(target.platform, path);
    key in t.files && t.files[key].comp == Gzip
  }

  /** The gzip decoder on a whole stream: the header is checked when the
      decoder is opened, the body while it is read. */
  function Inflate(codec: Codec, data: Bytes): (r: Result<Bytes, IoError>)
    ensures r.Err? ==> r.error.Corrupt?
    ensures r.Ok? <==> codec.header(data).Ok? && codec.inflate(data).Ok?
    ensures r.Ok? ==> r.value == codec.inflate(data).value
  {
    match codec.header(data)
    case Err(why) => Err(Corrupt(why))
    case Ok(_) =>
      match codec.inflate(data)
      case Ok(bytes) => Ok(bytes)
      case Err(why) => Err(Corrupt(why))
  }

  /** `get`: look up the normalised key; a miss is `KeyNotFound`. A `None`
      entry gives its stored bytes, a `Gzip` entry its decoded bytes, and a
      `Passthrough` entry the file at the caller's own `path` (not the
      normalised key), its stored bytes ignored. */
  function Get(t: Files, target: Target, disk: Disk, codec: Codec, path: string): (r: Result<Bytes, IoError>)
    requires target.flate2 || !NeedsDecoder(t, target, path)
    ensures r == Err(KeyNotFound) <==> AsKey(target.platform, path) !in t.files
    ensures
      var key := AsKey(target.platform, path);
      key in t.files ==>
        match t.files[key].comp
        case None => r == Ok(t.files[key].data)
        case Gzip => r == Inflate(codec, t.files[key].data)
        case Passthrough => r == ReadFile(disk, path)
  {
    var key := AsKey(target.platform, path);
    if key !in t.files then Err(KeyNotFound)
    else
      var entry := t.files[key];
      match entry.comp
      case None => Ok(entry.data)
      case Gzip => Inflate(codec, entry.data)
      case Passthrough => ReadFile(disk, path)
  }

  /** A byte stream handed out by `read`. */
  datatype Reader =
    | Cursor(data: Bytes)           // over embedded bytes
    | GzDecoder(compressed: Bytes)  // decoding embedded bytes as it is read
    | FileReader(contents: Bytes)   // over a file opened at `read` time

  /** Reading a stream to its end. */
  function ReadToEnd(reader: Reader, codec: Codec): (r: Result<Bytes, IoError>)
    ensures reader.Cursor? ==> r == Ok(reader.data)
    ensures reader.FileReader? ==> r == Ok(reader.contents)
    ensures reader.GzDecoder? ==> (r.Ok? <==> codec.inflate(reader.compressed).Ok?)
    ensures reader.GzDecoder? && r.Ok? ==> r.value == codec.inflate(reader.compressed).value
    ensures reader.GzDecoder? && r.Err? ==> r.error.Corrupt?
  {
    match reader
    case Cursor(data) => Ok(data)
    case GzDecoder(compressed) =>
      (match codec.inflate(compressed)
       case Ok(bytes) => Ok(bytes)
       case Err(why) => Err(Corrupt(why)))
    case FileReader(contents) => Ok(contents)
  }

  /** `read`: the lookup of `get`, handing out a stream. Only opening can fail
      here: a missing key, a bad gzip header, or a file that cannot be opened. */
  function Read(t: Files, target: Target, disk: Disk, codec: Codec, path: string): (r: Result<Reader, IoError>)
    requires target.flate2 || !NeedsDecoder(t, target, path)
    ensures r == Err(KeyNotFound) <==> AsKey(target.platform, path) !in t.files
    // opening checks only the gzip header; the body is decoded as it is read
    ensures
      var key := AsKey(target.platform, path);
      r.Ok? <==>
        && key in t.files
        && (t.files[key].comp == Gzip ==> codec.header(t.files[key].data).Ok?)
        && (t.files[key].comp == Passthrough ==> path in disk.contents)
    ensures r.Ok? && r.value.Cursor? ==> t.files[AsKey(target.platform, path)] == Entry(Compression.None, r.value.data)
    ensures r.Ok? && r.value.GzDecoder? ==> t.files[AsKey(target.platform, path)] == Entry(Gzip, r.value.compressed)
    ensures r.Ok? && r.value.FileReader? ==>
      t.files[AsKey(target.platform, path)].comp == Passthrough && path in disk.contents && disk.contents[path] == r.value.contents
  {
    var key := AsKey(target.platform, path);
    if key !in t.files then Err(KeyNotFound)
    else
      var entry := t.files[key];
      match entry.comp
      case None => Ok(Cursor(entry.data))
      case Gzip =>
        (match codec.header(entry.data)
         case Err(why) => Err(Corrupt(why))
         case Ok(_) => Ok(GzDecoder(entry.data)))
      case Passthrough =>
        match ReadFile(disk, path)
        case Err(e) => Err(e)
        case Ok(contents) => Ok(FileReader(contents))
  }

  /** Reading `read`'s stream to its end gives exactly what `get` returns,
      and `read` fails exactly when `get` fails at opening time. */
  lemma ReadAgreesWithGet(t: Files, target: Target, disk: Disk, codec: Codec, path: string)
    requires target.flate2 || !NeedsDecoder(t, target, path)
    ensures
      var g := Get(t, target, disk, codec, path);
      match Read(t, target, disk, codec, path)
      case Ok(reader) => ReadToEnd(reader, codec) == g
      case Err(e) => g == Err(e)
  {
  }

  /** Paths with the same key see the same embedded content: only a
      passthrough entry depends on how the caller spelled the path. */
  lemma GetDependsOnKeyOnly(t: Files, target: Target, disk: Disk, codec: Codec, p: string, q: string)
    requires target.flate2 || !NeedsDecoder(t, target, p)
    requires AsKey(target.platform, p) == AsKey(target.platform, q)
    requires var key := AsKey(target.platform, p); key !in t.files || t.files[key].comp != Passthrough
    ensures Get(t, target, disk, codec, p) == Get(t, target, disk, codec, q)
  {
  }

  /** A passthrough entry's stored bytes play no part: replacing them leaves
      every lookup unchanged. */
  lemma PassthroughIgnoresPayload(t: Files, target: Target, disk: Disk, codec: Codec, key: string, junk: Bytes, path: string)
    requires key in t.files && t.files[key].comp == Passthrough
    requires target.flate2 || !NeedsDecoder(t, target, path)
    ensures
      var t' := Files(t.files[key := Entry(Passthrough, junk)]);
      Get(t', target, disk, codec, path) == Get(t, target, disk, codec, path)
  {
  }

  /** On Windows, `available` and `get` disagree on a backslash spelling: the
      key `a/b` is not available as `a\b`, yet `get("a\b")` finds it. */
  lemma AvailableDoesNotNormalise(data: Bytes, disk: Disk, codec: Codec)
    ensures
      var t := Files(map["a/b" := Entry(Compression.None, data)]);
      && !Available(t, "a\\b")
      && Get(t, Target(Windows, false), disk, codec, "a\\b") == Ok(data)
  {
    SeparatorsMerge("a", "b");
    assert "a\\b" == "a" + "\\" + "b";
    assert "a/b" == "a" + "/" + "b";
    assert AsKey(Windows, "a") == "a" && AsKey(Windows, "b") == "b";
  }
}
